=== FILE: README.md ===
# Laser mask: a Dafny model

`sm_laser_mask.py` post-processes G-code written by Snapmaker Luban for
line-filled grayscale laser engraving. It makes two changes:

- It turns a cutting move (`G1 … S<intensity>`) into a travel move
  (`G0 … S0`) when its intensity is written with one or two integer digits
  and an optional fraction, is followed by whitespace, and is below a
  threshold. Travel moves run much faster. A move whose intensity has three
  or more integer digits, or ends the file without a newline, is not changed
  at that `S`. The search is for the literal text `G1`, so a move written
  with a leading zero, `G01`, is never changed.
- It drops every line that starts with the two characters `G0` (so also
  `G00`, `G01`, `G02` and `G03`) and is followed directly by another such
  line, unless the earlier line contains `F` or `Y` anywhere, comments
  included. The intent is to keep a feed rate or a Y coordinate; a
  zero-padded cutting move such as `G02` is treated as a travel line too.

The script is one pure line transformation wrapped in argument parsing and
file I/O. This project models that transformation in six modules:

- `Wrappers` (`wrappers.dfy`) holds the optional value used by the scanners
  and by the main loop's pending slot.
- `Pattern` (`pattern.dfy`) is a hand-written matcher for the single regular
  expression on line 40:
  `G1(.*?)S((?:\d{1,2}(?:\.\d+)?|0)(?=\D|$))\s`.
  - `MatchAt`/`IsFirstMatch` say what a match is and which one Python's `re`
    reports: the leftmost start first, then the shortest lazy group 1.
  - `FindFrom` is a scanner proved to return exactly that match, or to report
    that none exists.
- `Decimal` (`decimal.dfy`) reads group 2 as a number. `Intensity` is its
  value as an exact decimal, and the module bounds it and relates it to its
  integer digits.
- `Substitution` (`substitution.dfy`) models `regex.sub(replace_line, line)`
  for one line: the `replace_line` rule, then a resumed search after each
  match. The number of demoted matches is returned next to the text instead
  of being bumped in a global.
- `Elision` (`elision.dfy`) models the one-slot lookback of the main loop:
  - `ElideFrom` is the loop as a fold over an optional pending line, with the
    final flush;
  - `Survivors` is an independent, stateless rule that decides each line from
    itself and its successor;
  - the two are proved equal.
- `Transform` (`transform.dfy`) connects the two stages over a whole file.
  - `Process` is an imperative method with the loop of lines 61–77 (pending
    slot, counter, final flush), proved to compute the functional model.
  - It also holds end-to-end lemmas and worked examples.

Facts about the expression that the model relies on, each proved:

- The look-ahead `(?=\D|$)` is implied by the `\s` that follows it, because no
  whitespace character is a digit, and the alternative `|0` is redundant.
  `ValueAsWrittenAt` transcribes the value part with both, and
  `ValueAsWrittenIsValueEndsAt` proves it accepts exactly what the matcher's
  simpler `ValueEndsAt` accepts.
- At a given `S` there is at most one value followed by whitespace, so group 2
  is determined (`MatchValueUnique`).
- The recognised intensities lie in [0, 100) (`IntensityRange`). An `S`
  followed by three digits never starts a value (`ThreeDigitsNeverMatch`).
  With the usage comment's thresholds of up to 255, lines at intensity 100
  or more are therefore never demoted at that `S`.
  Because group 1 is lazy and may contain `S`, such a line can still match
  at a later `S` on the same line (`ThreeDigitsMatchLater`).
- Against a whole-number threshold, such as those in the usage comment, an
  intensity is below the threshold exactly when its integer digits are; the
  fraction never decides (`WholeThresholdReadsIntegerPart`).

The trailing `\s` is part of the match and is replaced together with it. The
replacement always ends in `"\n"`. When a space closes the value, as in
`G1 X10 Y5 S45 \n`, the line's own newline is kept as well. The rewritten
line is therefore `G0 X10 Y5 S0\n\n`, which adds an empty line to the output
file; `Transform.SpaceBeforeNewlineLeavesEmptyLine` states this result.

## Model

| member | source | states |
|---|---|---|
| Pattern.ValueAsWrittenIsValueEndsAt | sm_laser_mask.py:40 | the value part as written, with the `0` alternative and the look-ahead for a non-digit or the end before `\s`, accepts a value of length `n` exactly when the simpler form without them does |
| Pattern.ScanValue | sm_laser_mask.py:40 | the value part succeeds with length `n` exactly when one or two digits, an optional point and digits, and one whitespace character start there; the length is unique |
| Pattern.ShortestFrom | sm_laser_mask.py:40 | the lazy group 1 grows until `S`, a value and whitespace follow; the result is the shortest such group, or none when a newline or the end comes first |
| Pattern.FindFrom | sm_laser_mask.py:40 | the search returns the leftmost match with the shortest group 1, and returns nothing only when no match starts at or after the position |
| Pattern.FirstMatchUnique | sm_laser_mask.py:40 | leftmost-then-shortest determines the match completely |
| Pattern.MatchValueUnique | sm_laser_mask.py:40 | at a given `G1` and `S`, the captured value is determined |
| Pattern.FindsMatch | sm_laser_mask.py:40 | a match with nothing further left and no `S` in its group 1 is the one the search reports |
| Pattern.ValueChars | sm_laser_mask.py:40 | group 2 consists of digits and points only |
| Pattern.ThreeDigitsNeverMatch | sm_laser_mask.py:40 | an `S` followed by three digits never begins the value of a match |
| Decimal.IntensityRange | sm_laser_mask.py:47 | every intensity the pattern recognises lies in [0, 100) |
| Decimal.IntensityFloor | sm_laser_mask.py:47 | the intensity lies between its integer digits' value and that value plus one, and equals it when there is no point |
| Decimal.PlaceBracket | sm_laser_mask.py:47 | the first `k` digits after the point fix the fraction to within one unit of the `k`-th place, from below: each digit carries its place value, in reading order |
| Decimal.IntensityToHundredths | sm_laser_mask.py:47 | a value with two digits on each side of the point reads as tens, units, tenths and hundredths |
| Decimal.ReadsTwelvePointThirtyFour | sm_laser_mask.py:47 | `12.34` reads as 12.34 |
| Decimal.WholeThresholdReadsIntegerPart | sm_laser_mask.py:47-48 | against a whole-number threshold, the intensity is below it exactly when its integer digits are: the fraction never decides |
| Substitution.PassThrough | sm_laser_mask.py:64 | a line the pattern does not match comes out unchanged, with nothing counted |
| Substitution.FirstMatchDecides | sm_laser_mask.py:46-53 | the text before the first match is kept; its code becomes `G0` if and only if the intensity is strictly below the threshold and stays `G1` if and only if it is not; a demotion is counted |
| Substitution.UnchangedIffNothingDemoted | sm_laser_mask.py:46-53 | a line comes out unchanged if and only if no match on it was demoted |
| Substitution.NonPositiveThresholdKeepsText | sm_laser_mask.py:48 | a threshold of zero or less changes nothing and counts nothing |
| Substitution.HighThresholdsAgree | sm_laser_mask.py:48 | all thresholds of 100 or more give the same result |
| Substitution.CountMonotone | sm_laser_mask.py:48-50 | raising the threshold never lowers the count |
| Substitution.CountIsCodeShift | sm_laser_mask.py:48-51 | the count equals the number of `G0` codes gained and the number of `G1` codes lost on the line |
| Transform.ChangedTotalIsCodeShift | sm_laser_mask.py:43-51 | the final counter equals the number of `G1` codes turned into `G0` codes over the whole file |
| Transform.NoMatchPassesThrough | sm_laser_mask.py:64 | a file with no match anywhere is unchanged by the substitution stage, and the counter stays zero |
| Transform.MarkingMoveFound | sm_laser_mask.py:40 | a cutting move at the front of a line, with no `S` in its parameters, is matched exactly, with the expected groups |
| Transform.MarkingMoveRewrite | sm_laser_mask.py:46-53 | such a move becomes `"G0" + parameters + "S0\n"` with one count when its intensity is below the threshold; otherwise it is copied verbatim; the rest of the line is substituted on its own |
| Transform.SkipsThreeDigitS | sm_laser_mask.py:40 | an `S` followed by three digits inside group 1 does not stop the search: a match at the front that runs past it is the one reported |
| Transform.ThreeDigitsMatchLater | sm_laser_mask.py:40 | a line whose first `S` carries three digits still matches, at its next `S` with a value followed by whitespace |
| Transform.DemotesExampleLine | sm_laser_mask.py:48-51 | `G1 … S45\n` under threshold 50 becomes `G0 … S0\n`, counted once |
| Transform.SpaceBeforeNewlineLeavesEmptyLine | sm_laser_mask.py:51 | `G1 … S45 \n` under threshold 50 becomes `G0 … S0\n\n`: the pattern consumes the space, not the newline |
| Transform.KeepsLineAtThreshold | sm_laser_mask.py:52-53 | an intensity equal to the threshold is kept: the test is strict |
| Elision.ElideIsSurvivors | sm_laser_mask.py:67-73 | the lookback loop writes exactly these lines: every non-empty line except a non-essential `G0` line directly followed by a `G0` line |
| Elision.ElideIsSubsequence | sm_laser_mask.py:61-77 | the output is the transformed lines with some deleted, in order and unaltered, and is no longer than them |
| Elision.SurvivorsSplitAtKept | sm_laser_mask.py:67-73 | at a kept line, the surviving lines split into those of the lines up to it, which end with it, followed by those of the lines after it |
| Elision.EssentialAlwaysWritten | sm_laser_mask.py:56-57 | a non-empty line that is not a travel line, or that contains `F` or `Y`, is written at its own position: the output is the elision of the lines up to it, ending with that line, followed by the elision of the lines after it |
| Elision.LastAlwaysWritten | sm_laser_mask.py:75-77 | the final flush writes the last line when it is non-empty, and it comes last |
| Elision.RunKeepsOnlyLast | sm_laser_mask.py:67-68 | inside a maximal run of `G0` lines, all of them non-essential except possibly the last, every line but the last is dropped and the last is kept |
| Elision.RunCollapsesToLast | sm_laser_mask.py:67-77 | such a run on its own elides to its last line |
| Transform.Advance | sm_laser_mask.py:67-73 | one loop step: what it writes, followed by the elision of any continuation from the new pending line, equals the elision from the old pending line |
| Transform.Process | sm_laser_mask.py:60-77 | the loop writes exactly the survivors of the transformed lines and counts exactly the demotions; the output is a subsequence no longer than the input; an empty file gives empty output and a zero count |
| Transform.LastLineWritten | sm_laser_mask.py:75-77 | when the last input line is non-empty, its transformed form is the last output line |
| Transform.ElisionExamples | sm_laser_mask.py:67-68 | two plain travel lines collapse to the later one; an `F` on the first keeps both; a `G02` arc without `F` or `Y` before a travel line is dropped, since the test is a literal `G0` prefix |
| Transform.ZeroPaddedMoveNeverMatches | sm_laser_mask.py:40 | a line starting `G01` with no further `G` is never matched, so it is never demoted and nothing is counted |

## Left out

- Argument checking, the usage message and `sys.exit(1)` (lines 30–32) are process plumbing.
- Reading `argv` (lines 35–37) is left out; the threshold is a parameter of the model.
- Opening, reading and writing the files, and the final `print`s (lines 60, 72, 77, 79–80), are left out. Input and output are sequences of lines; the counter is returned.
- How Python's file iteration splits a file into lines, and newline translation, are left out. The input is the sequence of lines as iteration yields them. Such lines are never empty, which `Transform.LastLineWritten` takes as a precondition.
- Decimal.Intensity: the value is an exact decimal, not an IEEE double. Python's `float` rounds very long fractions: `49.99999999999999999` becomes `50.0`, so it is not below a threshold of 50, while the model says it is. A threshold given as `nan` or `inf` cannot be expressed either.
- Pattern.IsDigit: `\d` on a Python `str` pattern also matches non-ASCII decimal digits, which `float` accepts too. The model recognises ASCII digits only.
- Pattern.IsSpace: `\s` is modelled as the set of characters for which `str.isspace` holds, written out as a fixed list.
- Only this one expression is modelled, not a regular-expression engine.
- Substitution.Substitute: its own contract only states that empty text stays empty. What it computes is stated by the lemmas about it in the table above.

=== FILE: decimal.dfy ===
/** The number `float(match.group(2))` reads from the intensity text, as an
    exact decimal, and what the pattern allows it to be. */
module Decimal {
  import opened Pattern

  function DigitValue(c: char): nat
    requires IsDigit(c)
  {
    c as int - '0' as int
  }

  /** The number a run of decimal digits denotes. */
  function IntValue(ds: string): nat
    requires AllDigits(ds)
    decreases |ds|
  {
    if |ds| == 0 then 0 else 10 * IntValue(ds[..|ds| - 1]) + DigitValue(ds[|ds| - 1])
  }

  /** The number `0.ds` denotes. */
  function FractionValue(ds: string): real
    requires AllDigits(ds)
    decreases |ds|
  {
    if |ds| == 0 then 0.0 else (DigitValue(ds[0]) as real + FractionValue(ds[1..])) / 10.0
  }

  /** `float(match.group(2))`, as an exact decimal. */
  function Intensity(v: string): real
    requires IsValue(v)
  {
    if IsIntPart(v) then IntValue(v) as real
    else if HasFractionAt(v, 1) then IntValue(v[..1]) as real + FractionValue(v[2..])
    else IntValue(v[..2]) as real + FractionValue(v[3..])
  }

  lemma {:induction false} FractionBelowOne(ds: string)
    requires AllDigits(ds)
    ensures 0.0 <= FractionValue(ds) < 1.0
    decreases |ds|
  {
    if |ds| > 0 {
      FractionBelowOne(ds[1..]);
    }
  }

  lemma IntPartBelowHundred(ds: string)
    requires IsIntPart(ds)
    ensures IntValue(ds) < 100
  {
    assert IntValue(ds[..|ds| - 1]) < 10 by {
      if |ds| == 2 {
        assert ds[..1][..0] == [];
      }
    }
  }

  /** Every intensity the pattern recognises lies in [0, 100). */
  lemma IntensityRange(v: string)
    requires IsValue(v)
    ensures 0.0 <= Intensity(v) < 100.0
  {
    if IsIntPart(v) {
      IntPartBelowHundred(v);
    } else if HasFractionAt(v, 1) {
      IntPartBelowHundred(v[..1]);
      FractionBelowOne(v[2..]);
    } else {
      IntPartBelowHundred(v[..2]);
      FractionBelowOne(v[3..]);
    }
  }

  /** The weight of the `k`-th fractional place, `10^-k`. */
  function Unit(k: nat): (u: real)
    ensures 0.0 < u <= 1.0
  {
    if k == 0 then 1.0 else Unit(k - 1) / 10.0
  }

  /** Place value: the first `k` fractional digits fix `0.ds` to within one
      unit of the `k`-th place, from below. */
  lemma {:induction false} PlaceBracket(ds: string, k: nat)
    requires AllDigits(ds) && k <= |ds|
    ensures FractionValue(ds[..k]) <= FractionValue(ds) < FractionValue(ds[..k]) + Unit(k)
    decreases k
  {
    if k == 0 {
      FractionBelowOne(ds);
    } else {
      PlaceBracket(ds[1..], k - 1);
      assert ds[..k][1..] == ds[1..][..k - 1];
    }
  }

  /** A value with two digits on each side of the point reads as tens, units,
      tenths and hundredths, in that order. */
  lemma IntensityToHundredths(v: string)
    requires |v| == 5 && IsDigit(v[0]) && IsDigit(v[1]) && v[2] == '.' && IsDigit(v[3]) && IsDigit(v[4])
    ensures IsValue(v)
    ensures Intensity(v) == (10 * DigitValue(v[0]) + DigitValue(v[1])) as real
                            + DigitValue(v[3]) as real / 10.0 + DigitValue(v[4]) as real / 100.0
  {
    assert HasFractionAt(v, 2);
    assert !IsIntPart(v) && !HasFractionAt(v, 1);
    var ip := v[..2];
    assert ip[..1][..0] == [] && ip[..1][0] == v[0];
    assert IntValue(ip[..1]) == DigitValue(v[0]);
    var fs := v[3..];
    assert fs[1..][1..] == [];
    assert FractionValue(fs[1..]) == DigitValue(v[4]) as real / 10.0;
  }

  /** `float("12.34")` is 12.34. */
  lemma ReadsTwelvePointThirtyFour()
    ensures IsValue("12.34") && Intensity("12.34") == 12.34
  {
    IntensityToHundredths("12.34");
  }

  /** The digits before the point. */
  function IntegerDigits(v: string): (ip: string)
    requires IsValue(v)
    ensures IsIntPart(ip)
  {
    if IsIntPart(v) then v else if HasFractionAt(v, 1) then v[..1] else v[..2]
  }

  /** The integer the digits before the point spell is the floor of the
      intensity; without a point the two are equal. */
  lemma IntensityFloor(v: string)
    requires IsValue(v)
    ensures IntValue(IntegerDigits(v)) as real <= Intensity(v) < IntValue(IntegerDigits(v)) as real + 1.0
    ensures '.' !in v ==> Intensity(v) == IntValue(v) as real
  {
    if IsIntPart(v) {
    } else if HasFractionAt(v, 1) {
      FractionBelowOne(v[2..]);
      assert v[1] == '.';
    } else {
      FractionBelowOne(v[3..]);
      assert v[2] == '.';
    }
  }

  /** Against a whole-number threshold only the digits before the point
      decide: `49.9` is below 50, `50.5` is not. */
  lemma WholeThresholdReadsIntegerPart(v: string, t: int)
    requires IsValue(v)
    ensures Intensity(v) < t as real <==> IntValue(IntegerDigits(v)) < t
  {
    IntensityFloor(v);
  }
}

=== FILE: elision.dfy ===
/** The one-line lookback of the main loop: a travel line (`G0`) is held back
    and dropped when the next line is a travel line too, unless it carries a
    feed rate (`F`) or a Y coordinate (`Y`).

    `ElideFrom` is the loop as a fold over an optional pending line; `Survivors`
    is an independent, stateless rule that decides each line from itself and
    its successor alone. `ElideIsSurvivors` proves the two agree. */
module Elision {
  import opened Wrappers

  /** `line.startswith("G0")`: a literal prefix test, so `G01` counts too. */
  predicate IsTravel(line: string) {
    |line| >= 2 && line[0] == 'G' && line[1] == '0'
  }

  /** `is_essential_g0_command`: `F` or `Y` anywhere in the line. */
  predicate IsEssential(line: string) {
    'F' in line || 'Y' in line
  }

  /** `if previous_line`: a pending slot counts as filled only when it holds a
      non-empty string, as Python treats `""` like `None`. */
  predicate Occupied(pending: Option<string>) {
    pending.Some? && pending.value != ""
  }

  /** The condition on line 67 under which the pending line is dropped. */
  predicate Merges(pending: Option<string>, next: string) {
    Occupied(pending) && IsTravel(pending.value) && IsTravel(next) && !IsEssential(pending.value)
  }

  /** What writing the pending line puts in the output. */
  function Flush(pending: Option<string>): seq<string> {
    if Occupied(pending) then [pending.value] else []
  }

  /** The loop from some pending state over the remaining transformed lines,
      followed by the final flush. */
  function ElideFrom(pending: Option<string>, lines: seq<string>): seq<string>
    decreases |lines|
  {
    if |lines| == 0 then
      Flush(pending)
    else
      (if Merges(pending, lines[0]) then [] else Flush(pending)) + ElideFrom(Some(lines[0]), lines[1..])
  }

  /** The whole pass, starting with nothing pending. */
  function Elide(lines: seq<string>): seq<string> {
    ElideFrom(None, lines)
  }

  /** Line `i` is written: it is non-empty, and it is not a non-essential travel
      line followed by another travel line. */
  predicate KeptAt(lines: seq<string>, i: nat)
    requires i < |lines|
  {
    lines[i] != ""
    && !(i + 1 < |lines| && IsTravel(lines[i]) && IsTravel(lines[i + 1]) && !IsEssential(lines[i]))
  }

  /** The kept lines, in input order. */
  function Survivors(lines: seq<string>): seq<string>
    decreases |lines|
  {
    if |lines| == 0 then [] else (if KeptAt(lines, 0) then [lines[0]] else []) + Survivors(lines[1..])
  }

  lemma {:induction false} ElideFromPending(x: string, rest: seq<string>)
    ensures ElideFrom(Some(x), rest) == Survivors([x] + rest)
    decreases |rest|
  {
    var lines := [x] + rest;
    assert lines[1..] == rest;
    if |rest| > 0 {
      ElideFromPending(rest[0], rest[1..]);
      assert [rest[0]] + rest[1..] == rest;
    }
  }

  /** The fold with its pending slot writes exactly the lines the stateless
      rule keeps: a line is dropped if and only if it is empty, or it and its
      successor both start with `G0` and it carries neither `F` nor `Y`. */
  lemma ElideIsSurvivors(lines: seq<string>)
    ensures Elide(lines) == Survivors(lines)
  {
    if |lines| > 0 {
      ElideFromPending(lines[0], lines[1..]);
      assert [lines[0]] + lines[1..] == lines;
    }
  }

  /** `a` is obtained from `b` by deleting elements, keeping the order. */
  predicate IsSubsequence(a: seq<string>, b: seq<string>)
    decreases |b|
  {
    if |a| == 0 then true
    else if |b| == 0 then false
    else (a[0] == b[0] && IsSubsequence(a[1..], b[1..])) || IsSubsequence(a, b[1..])
  }

  lemma {:induction false} SubsequenceShorter(a: seq<string>, b: seq<string>)
    requires IsSubsequence(a, b)
    ensures |a| <= |b|
    decreases |b|
  {
    if |a| > 0 {
      if a[0] == b[0] && IsSubsequence(a[1..], b[1..]) {
        SubsequenceShorter(a[1..], b[1..]);
      } else {
        SubsequenceShorter(a, b[1..]);
      }
    }
  }

  lemma {:induction false} SurvivorsSubsequence(lines: seq<string>)
    ensures IsSubsequence(Survivors(lines), lines)
    decreases |lines|
  {
    if |lines| > 0 {
      SurvivorsSubsequence(lines[1..]);
      var rest := Survivors(lines[1..]);
      if KeptAt(lines, 0) {
        assert ([lines[0]] + rest)[1..] == rest;
      } else {
        assert Survivors(lines) == rest;
        if |rest| > 0 {
          SubsequenceSkip(rest, lines);
        }
      }
    }
  }

  lemma SubsequenceSkip(a: seq<string>, b: seq<string>)
    requires |a| > 0 && |b| > 0 && IsSubsequence(a, b[1..])
    ensures IsSubsequence(a, b)
  {
  }

  /** Elision only deletes lines: the output is the transformed lines with
      some removed, in their order, unaltered, and no longer than the input. */
  lemma ElideIsSubsequence(lines: seq<string>)
    ensures IsSubsequence(Elide(lines), lines)
    ensures |Elide(lines)| <= |lines|
  {
    ElideIsSurvivors(lines);
    SurvivorsSubsequence(lines);
    SubsequenceShorter(Elide(lines), lines);
  }

  /** A kept line splits the survivors: those of the lines up to it, ending
      with that very line, followed by those of the lines after it. */
  lemma {:induction false} SurvivorsSplitAtKept(lines: seq<string>, i: nat)
    requires i < |lines| && KeptAt(lines, i)
    ensures var head := Survivors(lines[..i + 1]);
            Survivors(lines) == head + Survivors(lines[i + 1..])
            && |head| > 0 && head[|head| - 1] == lines[i]
    decreases i
  {
    var prefix := lines[..i + 1];
    if i == 0 {
      assert prefix == [lines[0]] && prefix[1..] == [];
      assert lines[1..] == lines[i + 1..];
    } else {
      var tail := lines[1..];
      assert KeptAt(tail, i - 1);
      SurvivorsSplitAtKept(tail, i - 1);
      assert tail[..i] == prefix[1..];
      assert tail[i..] == lines[i + 1..];
      assert KeptAt(prefix, 0) == KeptAt(lines, 0);
      var first := if KeptAt(lines, 0) then [lines[0]] else [];
      var mid := Survivors(prefix[1..]);
      assert Survivors(prefix) == first + mid;
      assert Survivors(lines) == first + (mid + Survivors(lines[i + 1..]));
      assert first + (mid + Survivors(lines[i + 1..])) == first + mid + Survivors(lines[i + 1..]);
    }
  }

  /** Elision safety: a non-empty line that is not a travel line, or that is
      essential, is written in its own place: the output is the elision of the
      lines up to it, ending with that line, followed by the elision of the
      lines after it. */
  lemma EssentialAlwaysWritten(lines: seq<string>, i: nat)
    requires i < |lines| && lines[i] != ""
    requires !IsTravel(lines[i]) || IsEssential(lines[i])
    ensures var head := Elide(lines[..i + 1]);
            Elide(lines) == head + Elide(lines[i + 1..])
            && |head| > 0 && head[|head| - 1] == lines[i]
    ensures lines[i] in Elide(lines)
  {
    ElideIsSurvivors(lines);
    ElideIsSurvivors(lines[..i + 1]);
    ElideIsSurvivors(lines[i + 1..]);
    SurvivorsSplitAtKept(lines, i);
    var head := Elide(lines[..i + 1]);
    assert Elide(lines)[|head| - 1] == lines[i];
  }

  lemma {:induction false} LastSurvives(lines: seq<string>)
    requires |lines| > 0 && lines[|lines| - 1] != ""
    ensures |Survivors(lines)| > 0 && Survivors(lines)[|Survivors(lines)| - 1] == lines[|lines| - 1]
    decreases |lines|
  {
    if |lines| > 1 {
      assert lines[1..][|lines| - 2] == lines[|lines| - 1];
      LastSurvives(lines[1..]);
    }
  }

  /** The last transformed line is always written, and it comes last. */
  lemma LastAlwaysWritten(lines: seq<string>)
    requires |lines| > 0 && lines[|lines| - 1] != ""
    ensures |Elide(lines)| > 0 && Elide(lines)[|Elide(lines)| - 1] == lines[|lines| - 1]
  {
    ElideIsSurvivors(lines);
    LastSurvives(lines);
  }

  /** Inside a maximal run of travel lines in which every line but the last is
      non-essential, every line but the last is dropped and the last is kept. */
  lemma RunKeepsOnlyLast(lines: seq<string>, lo: nat, hi: nat)
    requires lo < hi <= |lines|
    requires forall i :: lo <= i < hi ==> IsTravel(lines[i])
    requires forall i :: lo <= i < hi - 1 ==> !IsEssential(lines[i])
    requires hi == |lines| || !IsTravel(lines[hi])
    ensures forall i :: lo <= i < hi - 1 ==> !KeptAt(lines, i)
    ensures KeptAt(lines, hi - 1)
  {
    assert IsTravel(lines[hi - 1]);
  }

  /** A run of travel lines, all but the last non-essential, elides on its own
      to its last line. */
  lemma {:induction false} RunCollapsesToLast(run: seq<string>)
    requires |run| > 0
    requires forall i :: 0 <= i < |run| ==> IsTravel(run[i])
    requires forall i :: 0 <= i < |run| - 1 ==> !IsEssential(run[i])
    ensures Elide(run) == [run[|run| - 1]]
    decreases |run|
  {
    ElideIsSurvivors(run);
    RunSurvivors(run);
  }

  lemma {:induction false} RunSurvivors(run: seq<string>)
    requires |run| > 0
    requires forall i :: 0 <= i < |run| ==> IsTravel(run[i])
    requires forall i :: 0 <= i < |run| - 1 ==> !IsEssential(run[i])
    ensures Survivors(run) == [run[|run| - 1]]
    decreases |run|
  {
    assert IsTravel(run[0]);
    if |run| > 1 {
      assert IsTravel(run[1]) && !IsEssential(run[0]);
      assert !KeptAt(run, 0);
      assert run[1..][|run| - 2] == run[|run| - 1];
      RunSurvivors(run[1..]);
    }
  }
}

=== FILE: pattern.dfy ===
/** The one regular expression of the laser-mask script,

      G1(.*?)S((?:\d{1,2}(?:\.\d+)?|0)(?=\D|$))\s

    matched by hand. `MatchAt` and `IsFirstMatch` say what a match is and which
    one Python's `re` picks (the leftmost start, then the shortest lazy group);
    `FindFrom` is a scanner proved to return exactly that match.

    Two observations about the expression shape the model:
    - the look-ahead `(?=\D|$)` is always implied by the `\s` that follows it,
      because no whitespace character is a digit;
    - the alternative `|0` adds nothing, since `0` already matches `\d{1,2}`.
 */
module Pattern {
  import opened Wrappers

  predicate IsDigit(c: char) {
    '0' <= c <= '9'
  }

  /** `\s` of Python's `re` on text patterns: the characters for which `str.isspace` holds. */
  predicate IsSpace(c: char) {
    c == ' ' || c == '\t' || c == '\n' || c == '\r' || c == '\U{0B}' || c == '\U{0C}'
    || ('\U{1C}' <= c <= '\U{1F}') || c == '\U{85}' || c == '\U{A0}' || c == '\U{1680}'
    || ('\U{2000}' <= c <= '\U{200A}') || c == '\U{2028}' || c == '\U{2029}'
    || c == '\U{202F}' || c == '\U{205F}' || c == '\U{3000}'
  }

  predicate AllDigits(s: string) {
    forall i :: 0 <= i < |s| ==> IsDigit(s[i])
  }

  /** `\d{1,2}`: the integer part of an intensity. */
  predicate IsIntPart(s: string) {
    1 <= |s| <= 2 && AllDigits(s)
  }

  /** `\d{1,2}\.\d+` with exactly `d` integer digits. */
  predicate HasFractionAt(v: string, d: nat) {
    d + 1 < |v| && IsIntPart(v[..d]) && v[d] == '.' && AllDigits(v[d + 1..])
  }

  /** The text of group 2: an integer part of one or two digits, optionally
      followed by a point and one or more digits. */
  predicate IsValue(v: string) {
    IsIntPart(v) || HasFractionAt(v, 1) || HasFractionAt(v, 2)
  }

  /** A value of `n` characters starts at `i` and one whitespace character follows it. */
  predicate ValueEndsAt(s: string, i: nat, n: nat) {
    i + n < |s| && IsValue(s[i..i + n]) && IsSpace(s[i + n])
  }

  /** The value part exactly as line 40 writes it, tried at `i` with length
      `n`: one of the alternatives `\d{1,2}(?:\.\d+)?` and `0`, then the
      look-ahead `(?=\D|$)`, then the `\s` that closes the pattern. Without
      `re.MULTILINE`, `$` matches at the end of the text and also just before
      a newline that ends it. */
  predicate ValueAsWrittenAt(s: string, i: nat, n: nat) {
    i + n <= |s|
    && (IsValue(s[i..i + n]) || s[i..i + n] == "0")
    && (i + n == |s| || (i + n + 1 == |s| && s[i + n] == '\n') || !IsDigit(s[i + n]))
    && i + n < |s| && IsSpace(s[i + n])
  }

  /** The alternative `0` adds nothing and the look-ahead is implied by the
      whitespace after it: the expression as written accepts exactly the
      values `ValueEndsAt` describes. */
  lemma ValueAsWrittenIsValueEndsAt(s: string, i: nat, n: nat)
    ensures ValueAsWrittenAt(s, i, n) <==> ValueEndsAt(s, i, n)
  {
    assert IsIntPart("0");
  }

  predicate NoNewline(s: string, lo: nat, hi: nat)
    requires lo <= hi <= |s|
  {
    forall j :: lo <= j < hi ==> s[j] != '\n'
  }

  /** The pattern matches `s` with `G1` at `p`, group 1 spanning `s[p+2..q]`,
      `S` at `q`, a value of `n` characters and one whitespace character. */
  predicate MatchAt(s: string, p: nat, q: nat, n: nat) {
    p + 2 <= q < |s|
    && s[p] == 'G' && s[p + 1] == '1'
    && NoNewline(s, p + 2, q)
    && s[q] == 'S'
    && ValueEndsAt(s, q + 1, n)
  }

  /** A match, by the position of its `G1`, of its `S` and the length of its value. */
  datatype Match = Match(start: nat, sAt: nat, valueLen: nat) {
    /** One past the whitespace character that closes the match. */
    function End(): nat {
      sAt + valueLen + 2
    }
  }

  predicate IsMatch(s: string, m: Match) {
    MatchAt(s, m.start, m.sAt, m.valueLen)
  }

  /** No match starts at or after `from`. */
  ghost predicate NoMatchFrom(s: string, from: nat) {
    forall p: nat, q: nat, n: nat :: from <= p ==> !MatchAt(s, p, q, n)
  }

  /** `m` is the match `re` reports when searching from `from`: nothing matches
      further left, and at its start no shorter group 1 completes. */
  ghost predicate IsFirstMatch(s: string, from: nat, m: Match) {
    from <= m.start
    && IsMatch(s, m)
    && (forall p: nat, q: nat, n: nat :: from <= p < m.start ==> !MatchAt(s, p, q, n))
    && (forall q: nat, n: nat :: q < m.sAt ==> !MatchAt(s, m.start, q, n))
  }

  /** Group 1: the parameter text between `G1` and `S`. */
  function Group1(s: string, m: Match): string
    requires IsMatch(s, m)
  {
    s[m.start + 2..m.sAt]
  }

  /** Group 2: the intensity text. */
  function ValueText(s: string, m: Match): string
    requires IsMatch(s, m)
  {
    s[m.sAt + 1..m.sAt + 1 + m.valueLen]
  }

  /** Group 0: the whole matched span, closing whitespace included. */
  function MatchedText(s: string, m: Match): string
    requires IsMatch(s, m)
  {
    s[m.start..m.End()]
  }

  /** Length of the run of digits starting at `i`. */
  function DigitRun(s: string, i: nat): (n: nat)
    requires i <= |s|
    ensures i + n <= |s|
    ensures AllDigits(s[i..i + n])
    ensures i + n == |s| || !IsDigit(s[i + n])
    decreases |s| - i
  {
    if i < |s| && IsDigit(s[i]) then
      var n := DigitRun(s, i + 1);
      assert s[i..i + 1 + n] == [s[i]] + s[i + 1..i + 1 + n];
      1 + n
    else
      0
  }

  lemma {:induction false} DigitRunExact(s: string, i: nat, n: nat)
    requires i + n <= |s|
    requires AllDigits(s[i..i + n])
    requires i + n == |s| || !IsDigit(s[i + n])
    ensures DigitRun(s, i) == n
    decreases n
  {
    if n > 0 {
      var t := s[i..i + n];
      assert IsDigit(t[0]);
      assert s[i + 1..i + n] == t[1..];
      DigitRunExact(s, i + 1, n - 1);
    } else if i < |s| {
      assert !IsDigit(s[i]);
    }
  }

  /** The value part of the pattern, tried at `i`: the length of the value when
      one followed by whitespace starts there. Such a value is unique, because
      the whitespace can be neither a digit nor a point. */
  function ScanValue(s: string, i: nat): (r: Option<nat>)
    requires i <= |s|
    ensures r.Some? ==> ValueEndsAt(s, i, r.value)
    ensures forall n: nat :: ValueEndsAt(s, i, n) ==> r == Some(n)
  {
    var d := DigitRun(s, i);
    if d < 1 || 2 < d || i + d == |s| || (!IsSpace(s[i + d]) && s[i + d] != '.') then
      ScanValueNone(s, i);
      None
    else if IsSpace(s[i + d]) then
      ScanValueInt(s, i, d);
      Some(d)
    else
      ScanFraction(s, i, d)
  }

  /** The fractional alternative, once one or two digits and a point are read. */
  function ScanFraction(s: string, i: nat, d: nat): (r: Option<nat>)
    requires i <= |s| && d == DigitRun(s, i) && 1 <= d <= 2 && i + d < |s| && s[i + d] == '.'
    ensures r.Some? ==> ValueEndsAt(s, i, r.value)
    ensures forall n: nat :: ValueEndsAt(s, i, n) ==> r == Some(n)
  {
    var f := DigitRun(s, i + d + 1);
    if 1 <= f && i + d + 1 + f < |s| && IsSpace(s[i + d + 1 + f]) then
      ScanValueFraction(s, i, d, f);
      Some(d + 1 + f)
    else
      ScanFractionNone(s, i, d);
      None
  }

  /** Every value followed by whitespace is the one `DigitRun` delimits. */
  lemma ScanValueShape(s: string, i: nat, n: nat)
    requires ValueEndsAt(s, i, n)
    ensures var d := DigitRun(s, i);
            1 <= d <= 2 && i + d < |s|
            && ((n == d && IsSpace(s[i + d]))
                || (s[i + d] == '.' && n == d + 1 + DigitRun(s, i + d + 1) && d + 1 < n))
  {
    var v := s[i..i + n];
    if IsIntPart(v) {
      DigitRunExact(s, i, n);
    } else {
      var d: nat := if HasFractionAt(v, 1) then 1 else 2;
      assert HasFractionAt(v, d);
      assert s[i..i + d] == v[..d];
      assert s[i + d] == v[d] == '.';
      DigitRunExact(s, i, d);
      assert s[i + d + 1..i + n] == v[d + 1..];
      DigitRunExact(s, i + d + 1, n - d - 1);
    }
  }

  lemma ScanValueNone(s: string, i: nat)
    requires i <= |s|
    requires var d := DigitRun(s, i);
             d < 1 || 2 < d || i + d == |s| || (!IsSpace(s[i + d]) && s[i + d] != '.')
    ensures forall n: nat :: !ValueEndsAt(s, i, n)
  {
    forall n | ValueEndsAt(s, i, n) ensures false {
      ScanValueShape(s, i, n);
    }
  }

  lemma ScanFractionNone(s: string, i: nat, d: nat)
    requires i <= |s| && d == DigitRun(s, i) && 1 <= d <= 2 && i + d < |s| && s[i + d] == '.'
    requires var f := DigitRun(s, i + d + 1);
             !(1 <= f && i + d + 1 + f < |s| && IsSpace(s[i + d + 1 + f]))
    ensures forall n: nat :: !ValueEndsAt(s, i, n)
  {
    forall n | ValueEndsAt(s, i, n) ensures false {
      ScanValueShape(s, i, n);
    }
  }

  lemma ScanValueInt(s: string, i: nat, d: nat)
    requires i <= |s| && d == DigitRun(s, i) && 1 <= d <= 2 && i + d < |s| && IsSpace(s[i + d])
    ensures ValueEndsAt(s, i, d)
    ensures forall n: nat :: ValueEndsAt(s, i, n) ==> n == d
  {
    forall n | ValueEndsAt(s, i, n) ensures n == d {
      ScanValueShape(s, i, n);
    }
  }

  lemma ScanValueFraction(s: string, i: nat, d: nat, f: nat)
    requires i <= |s| && d == DigitRun(s, i) && 1 <= d <= 2 && i + d < |s| && s[i + d] == '.'
    requires f == DigitRun(s, i + d + 1) && 1 <= f
    requires i + d + 1 + f < |s| && IsSpace(s[i + d + 1 + f])
    ensures ValueEndsAt(s, i, d + 1 + f)
    ensures forall n: nat :: ValueEndsAt(s, i, n) ==> n == d + 1 + f
  {
    var v := s[i..i + d + 1 + f];
    assert v[..d] == s[i..i + d];
    assert v[d + 1..] == s[i + d + 1..i + d + 1 + f];
    assert HasFractionAt(v, d);
    forall n | ValueEndsAt(s, i, n) ensures n == d + 1 + f {
      ScanValueShape(s, i, n);
    }
  }

  /** With `G1` at `p` and group 1 so far `s[p+2..q]`, the lazy group grows one
      character at a time until `S`, a value and whitespace follow it, and gives
      up at a newline or the end of the text. */
  function ShortestFrom(s: string, p: nat, q: nat): (r: Option<Match>)
    requires p + 2 <= q <= |s| && s[p] == 'G' && s[p + 1] == '1'
    requires NoNewline(s, p + 2, q)
    ensures r.Some? ==> r.value.start == p && q <= r.value.sAt && IsMatch(s, r.value)
    ensures r.Some? ==> forall q': nat, n: nat :: q <= q' < r.value.sAt ==> !MatchAt(s, p, q', n)
    ensures r.None? ==> forall q': nat, n: nat :: q <= q' ==> !MatchAt(s, p, q', n)
    decreases |s| - q
  {
    if q == |s| then
      None
    else if s[q] == 'S' && ScanValue(s, q + 1).Some? then
      Some(Match(p, q, ScanValue(s, q + 1).value))
    else if s[q] == '\n' then
      assert forall q': nat, n: nat :: q < q' && MatchAt(s, p, q', n) ==> s[q] != '\n';
      None
    else
      NoMatchWithoutValue(s, p, q);
      ShortestFrom(s, p, q + 1)
  }

  /** Where no `S` and value follow, group 1 cannot end. */
  lemma NoMatchWithoutValue(s: string, p: nat, q: nat)
    requires q < |s| && !(s[q] == 'S' && ScanValue(s, q + 1).Some?)
    ensures forall n: nat :: !MatchAt(s, p, q, n)
  {
  }

  /** The search `re.sub` performs from position `from`. */
  function FindFrom(s: string, from: nat): (r: Option<Match>)
    requires from <= |s|
    ensures r.Some? ==> IsFirstMatch(s, from, r.value)
    ensures r.None? ==> NoMatchFrom(s, from)
    decreases |s| - from
  {
    if |s| < from + 2 then
      None
    else if s[from] == 'G' && s[from + 1] == '1' then
      match ShortestFrom(s, from, from + 2)
      case Some(m) => Some(m)
      case None =>
        SkipStart(s, from);
        FindFrom(s, from + 1)
    else
      SkipStart(s, from);
      FindFrom(s, from + 1)
  }

  /** When no match starts at `from`, searching from `from` and from the next
      position find the same thing. */
  lemma SkipStart(s: string, from: nat)
    requires forall q: nat, n: nat :: !MatchAt(s, from, q, n)
    ensures NoMatchFrom(s, from + 1) ==> NoMatchFrom(s, from)
    ensures forall m :: IsFirstMatch(s, from + 1, m) ==> IsFirstMatch(s, from, m)
  {
  }

  /** The first match is determined: `re` has no choice to make. */
  lemma FirstMatchUnique(s: string, from: nat, m1: Match, m2: Match)
    requires IsFirstMatch(s, from, m1) && IsFirstMatch(s, from, m2)
    ensures m1 == m2
  {
    assert IsMatch(s, m1) && IsMatch(s, m2);
    assert m1.start == m2.start;
    assert m1.sAt == m2.sAt;
    MatchValueUnique(s, m1.start, m1.sAt, m1.valueLen, m2.valueLen);
  }

  /** A match with no match further left and no `S` inside its group 1 is the
      one the search reports. */
  lemma FindsMatch(s: string, m: Match)
    requires IsMatch(s, m)
    requires forall p: nat, q: nat, n: nat :: p < m.start ==> !MatchAt(s, p, q, n)
    requires forall q :: m.start + 2 <= q < m.sAt ==> s[q] != 'S'
    ensures FindFrom(s, 0) == Some(m)
  {
    assert IsFirstMatch(s, 0, m);
    var r := FindFrom(s, 0);
    assert IsMatch(s, m);
    FirstMatchUnique(s, 0, r.value, m);
  }

  /** A value consists of digits and at most one point. */
  lemma ValueChars(v: string)
    requires IsValue(v)
    ensures forall i :: 0 <= i < |v| ==> IsDigit(v[i]) || v[i] == '.'
  {
    if !IsIntPart(v) {
      var d: nat := if HasFractionAt(v, 1) then 1 else 2;
      assert HasFractionAt(v, d);
      assert forall i :: 0 <= i < d ==> v[i] == v[..d][i];
      assert forall i :: d < i < |v| ==> v[i] == v[d + 1..][i - d - 1];
    }
  }

  /** At a given `G1` and `S`, the value the pattern captures is determined. */
  lemma MatchValueUnique(s: string, p: nat, q: nat, n1: nat, n2: nat)
    requires MatchAt(s, p, q, n1) && MatchAt(s, p, q, n2)
    ensures n1 == n2
  {
    var r := ScanValue(s, q + 1);
  }

  /** An `S` followed by three digits never starts the value of a match: the
      pattern allows at most two integer digits, so intensities of 100 and
      above are not recognised at that `S`. */
  lemma ThreeDigitsNeverMatch(s: string, q: nat)
    requires q + 3 < |s| && s[q] == 'S'
    requires IsDigit(s[q + 1]) && IsDigit(s[q + 2]) && IsDigit(s[q + 3])
    ensures forall p: nat, n: nat :: !MatchAt(s, p, q, n)
  {
    forall p: nat, n: nat | MatchAt(s, p, q, n) ensures false {
      ScanValueShape(s, q + 1, n);
    }
  }
}

=== FILE: substitution.dfy ===
/** `regex.sub(replace_line, line)`: every match, left to right, is handed to
    the replacement rule, and the counter of changed lines is returned with the
    text instead of living in a global. */
module Substitution {
  import opened Wrappers
  import opened Pattern
  import opened Decimal

  /** The rewritten text and how many matches were demoted in it. */
  datatype Rewrite = Rewrite(text: string, count: nat)

  /** `replace_line` decides to demote the match: its intensity is strictly below the threshold. */
  predicate Demoted(s: string, m: Match, threshold: real)
    requires IsMatch(s, m)
  {
    Intensity(ValueText(s, m)) < threshold
  }

  /** What `replace_line` returns for one match: a travel move with intensity
      zero, closed by a newline, or the matched text untouched. */
  function Replacement(s: string, m: Match, threshold: real): string
    requires IsMatch(s, m)
  {
    if Demoted(s, m, threshold) then "G0" + Group1(s, m) + "S0\n" else MatchedText(s, m)
  }

  /** Replace-all: the first match is replaced and the search resumes right
      after it; text outside matches is copied. The pattern has no look-behind,
      so searching the remainder on its own finds what `re` finds there. */
  function Substitute(s: string, threshold: real): (r: Rewrite)
    ensures |r.text| == 0 <==> |s| == 0
    decreases |s|
  {
    match FindFrom(s, 0)
    case None => Rewrite(s, 0)
    case Some(m) =>
      var rest := Substitute(s[m.End()..], threshold);
      Rewrite(s[..m.start] + Replacement(s, m, threshold) + rest.text,
              (if Demoted(s, m, threshold) then 1 else 0) + rest.count)
  }

  /** A text the pattern does not match anywhere comes out as it went in. */
  lemma PassThrough(s: string, threshold: real)
    requires NoMatchFrom(s, 0)
    ensures Substitute(s, threshold) == Rewrite(s, 0)
  {
    match FindFrom(s, 0)
    case None =>
    case Some(m) =>
  }

  /** One step of the replace-all at a match found at the very start. */
  lemma SubstituteAtStart(s: string, threshold: real, m: Match)
    requires FindFrom(s, 0) == Some(m) && m.start == 0
    ensures Substitute(s, threshold)
            == Rewrite(Replacement(s, m, threshold) + Substitute(s[m.End()..], threshold).text,
                       (if Demoted(s, m, threshold) then 1 else 0) + Substitute(s[m.End()..], threshold).count)
  {
    assert s[..0] + Replacement(s, m, threshold) == Replacement(s, m, threshold);
  }

  lemma SplitAtMatch(s: string, m: Match)
    requires IsMatch(s, m)
    ensures s == s[..m.start] + MatchedText(s, m) + s[m.End()..]
  {
  }

  /** The text is unchanged exactly when nothing was demoted. A demotion always
      changes the text, because the `G1` it rewrites becomes `G0`. */
  lemma {:induction false} UnchangedIffNothingDemoted(s: string, threshold: real)
    ensures Substitute(s, threshold).text == s <==> Substitute(s, threshold).count == 0
    decreases |s|
  {
    match FindFrom(s, 0)
    case None =>
    case Some(m) =>
      var tail := s[m.End()..];
      var rest := Substitute(tail, threshold);
      UnchangedIffNothingDemoted(tail, threshold);
      var r := Substitute(s, threshold);
      SplitAtMatch(s, m);
      if Demoted(s, m, threshold) {
        assert r.text[m.start + 1] == '0';
        assert s[m.start + 1] == '1';
      } else {
        var head := s[..m.start] + MatchedText(s, m);
        assert r.text == head + rest.text;
        assert s == head + tail;
        if rest.count == 0 {
          assert r.text == s;
        } else {
          assert rest.text != tail;
          assert r.text[|head|..] == rest.text;
          assert s[|head|..] == tail;
        }
      }
  }

  /** Every recognised intensity is non-negative, so a threshold of zero or
      less leaves every text as it is and counts nothing. */
  lemma {:induction false} NonPositiveThresholdKeepsText(s: string, threshold: real)
    requires threshold <= 0.0
    ensures Substitute(s, threshold) == Rewrite(s, 0)
    decreases |s|
  {
    match FindFrom(s, 0)
    case None =>
    case Some(m) =>
      IntensityRange(ValueText(s, m));
      NonPositiveThresholdKeepsText(s[m.End()..], threshold);
      SplitAtMatch(s, m);
  }

  /** Every recognised intensity is below 100, so from a threshold of 100 up
      every match is demoted and the count no longer depends on the threshold. */
  lemma {:induction false} HighThresholdsAgree(s: string, t1: real, t2: real)
    requires 100.0 <= t1 && 100.0 <= t2
    ensures Substitute(s, t1) == Substitute(s, t2)
    decreases |s|
  {
    match FindFrom(s, 0)
    case None =>
    case Some(m) =>
      IntensityRange(ValueText(s, m));
      HighThresholdsAgree(s[m.End()..], t1, t2);
  }

  /** Raising the threshold never lowers the count: the matches do not depend
      on the threshold, and a demoted match stays demoted. */
  lemma {:induction false} CountMonotone(s: string, t1: real, t2: real)
    requires t1 <= t2
    ensures Substitute(s, t1).count <= Substitute(s, t2).count
    decreases |s|
  {
    match FindFrom(s, 0)
    case None =>
    case Some(m) =>
      CountMonotone(s[m.End()..], t1, t2);
  }

  /** The first match decides by strict comparison: text before it is kept,
      and its code becomes `G0` exactly when its intensity is below the
      threshold (an intensity equal to the threshold is kept as `G1`). */
  lemma FirstMatchDecides(s: string, threshold: real, m: Match)
    requires FindFrom(s, 0) == Some(m)
    ensures var r := Substitute(s, threshold);
            m.start + 2 <= |r.text|
            && r.text[..m.start] == s[..m.start]
            && (r.text[m.start..m.start + 2] == "G0" <==> Intensity(ValueText(s, m)) < threshold)
            && (r.text[m.start..m.start + 2] == "G1" <==> threshold <= Intensity(ValueText(s, m)))
            && (Intensity(ValueText(s, m)) < threshold ==> r.count >= 1)
  {
    var rep := Replacement(s, m, threshold);
    var rest := Substitute(s[m.End()..], threshold);
    assert Substitute(s, threshold).text == s[..m.start] + rep + rest.text;
    ReplacementCode(s, m, threshold);
    Splice3(s[..m.start], rep, rest.text);
  }

  /** The code a replacement starts with. */
  lemma ReplacementCode(s: string, m: Match, threshold: real)
    requires IsMatch(s, m)
    ensures |Replacement(s, m, threshold)| >= 2
    ensures Replacement(s, m, threshold)[..2] == if Demoted(s, m, threshold) then "G0" else "G1"
  {
  }

  lemma Splice3(a: string, b: string, c: string)
    requires |b| >= 2
    ensures (a + b + c)[..|a|] == a
    ensures (a + b + c)[|a|..|a| + 2] == b[..2]
  {
  }

  /** Occurrences of the two-character code `xy` in `s`. */
  function CodeCount(s: string, x: char, y: char): nat
    decreases |s|
  {
    if |s| < 2 then 0 else (if s[0] == x && s[1] == y then 1 else 0) + CodeCount(s[1..], x, y)
  }

  lemma {:induction false} CodeCountConcat(a: string, b: string, x: char, y: char)
    ensures CodeCount(a + b, x, y)
            == CodeCount(a, x, y) + CodeCount(b, x, y)
               + (if |a| > 0 && |b| > 0 && a[|a| - 1] == x && b[0] == y then 1 else 0)
    decreases |a|
  {
    if |a| == 0 {
      assert a + b == b;
    } else if |a| == 1 {
      if |b| > 0 {
        assert (a + b)[1..] == b;
      }
    } else {
      assert (a + b)[1..] == a[1..] + b;
      CodeCountConcat(a[1..], b, x, y);
    }
  }

  lemma {:induction false} CodeCountAbsent(s: string, x: char, y: char)
    requires forall i :: 0 <= i < |s| ==> s[i] != x
    ensures CodeCount(s, x, y) == 0
    decreases |s|
  {
    if |s| >= 2 {
      CodeCountAbsent(s[1..], x, y);
    }
  }

  /** A piece that starts with `G` and does not end with `G` creates no `G0`
      or `G1` across its borders when spliced between two texts. */
  lemma CodeCountSplice(a: string, piece: string, b: string, y: char)
    requires |piece| >= 2 && piece[0] == 'G' && piece[|piece| - 1] != 'G' && y != 'G'
    ensures CodeCount(a + piece + b, 'G', y)
            == CodeCount(a, 'G', y) + CodeCount(piece, 'G', y) + CodeCount(b, 'G', y)
  {
    CodeCountConcat(a, piece, 'G', y);
    CodeCountConcat(a + piece, b, 'G', y);
    assert (a + piece)[|a + piece| - 1] == piece[|piece| - 1];
  }

  /** Past its `G1`, a matched span holds no `G` outside group 1: an `S`,
      digits, a point and one whitespace character. */
  lemma NoCodeLetterAfterGroup(s: string, m: Match)
    requires IsMatch(s, m)
    ensures forall i :: m.sAt <= i < m.End() ==> s[i] != 'G'
  {
    var v := ValueText(s, m);
    ValueChars(v);
    assert forall i :: m.sAt < i < m.End() - 1 ==> s[i] == v[i - m.sAt - 1];
  }

  /** Codes inside a matched span: one `G1` in front, and otherwise only those of group 1. */
  lemma MatchedTextCodes(s: string, m: Match, y: char)
    requires IsMatch(s, m) && (y == '0' || y == '1')
    ensures CodeCount(MatchedText(s, m), 'G', y)
            == (if y == '1' then 1 else 0) + CodeCount(Group1(s, m), 'G', y)
  {
    var g := Group1(s, m);
    var tail := s[m.sAt..m.End()];
    assert MatchedText(s, m) == "G1" + (g + tail);
    assert tail[0] == 'S';
    NoCodeLetterAfterGroup(s, m);
    assert forall i :: 0 <= i < |tail| ==> tail[i] == s[m.sAt + i];
    CodeCountAbsent(tail, 'G', y);
    CodeCountConcat(g, tail, 'G', y);
    CodeCountConcat("G1", g + tail, 'G', y);
    assert CodeCount("G1", 'G', y) == (if y == '1' then 1 else 0) by {
      assert "G1"[1..] == "1";
    }
    if |g| == 0 {
      assert g + tail == tail;
    } else {
      assert (g + tail)[0] == g[0];
    }
  }

  /** Codes inside a demoted replacement: one `G0` in front, and otherwise only those of group 1. */
  lemma DemotedTextCodes(g: string, y: char)
    requires y == '0' || y == '1'
    ensures CodeCount("G0" + g + "S0\n", 'G', y)
            == (if y == '0' then 1 else 0) + CodeCount(g, 'G', y)
  {
    var tail := "S0\n";
    CodeCountAbsent(tail, 'G', y);
    CodeCountConcat(g, tail, 'G', y);
    CodeCountConcat("G0", g + tail, 'G', y);
    assert CodeCount("G0", 'G', y) == (if y == '0' then 1 else 0) by {
      assert "G0"[1..] == "0";
    }
    assert "G0" + g + tail == "G0" + (g + tail);
    if |g| == 0 {
      assert g + tail == tail;
    } else {
      assert (g + tail)[0] == g[0];
    }
  }

  /** One replacement shifts one code from `G1` to `G0` when it demotes, and none otherwise. */
  lemma ReplacementCodes(s: string, m: Match, threshold: real)
    requires IsMatch(s, m)
    ensures var d := if Demoted(s, m, threshold) then 1 else 0;
            var orig := MatchedText(s, m);
            var rep := Replacement(s, m, threshold);
            CodeCount(rep, 'G', '0') == CodeCount(orig, 'G', '0') + d
            && CodeCount(rep, 'G', '1') + d == CodeCount(orig, 'G', '1')
  {
    MatchedTextCodes(s, m, '0');
    MatchedTextCodes(s, m, '1');
    if Demoted(s, m, threshold) {
      DemotedTextCodes(Group1(s, m), '0');
      DemotedTextCodes(Group1(s, m), '1');
    }
  }

  /** Splicing: replacing `orig` by `rep` and `tail` by `tail'` shifts codes by the sum of the two shifts. */
  lemma SpliceShift(pre: string, orig: string, tail: string, rep: string, tail': string, d: nat, c: nat)
    requires |orig| >= 2 && orig[0] == 'G' && orig[|orig| - 1] != 'G'
    requires |rep| >= 2 && rep[0] == 'G' && rep[|rep| - 1] != 'G'
    requires CodeCount(rep, 'G', '0') == CodeCount(orig, 'G', '0') + d
    requires CodeCount(rep, 'G', '1') + d == CodeCount(orig, 'G', '1')
    requires CodeCount(tail', 'G', '0') == CodeCount(tail, 'G', '0') + c
    requires CodeCount(tail', 'G', '1') + c == CodeCount(tail, 'G', '1')
    ensures CodeCount(pre + rep + tail', 'G', '0') == CodeCount(pre + orig + tail, 'G', '0') + d + c
    ensures CodeCount(pre + rep + tail', 'G', '1') + d + c == CodeCount(pre + orig + tail, 'G', '1')
  {
    CodeCountSplice(pre, orig, tail, '0');
    CodeCountSplice(pre, orig, tail, '1');
    CodeCountSplice(pre, rep, tail', '0');
    CodeCountSplice(pre, rep, tail', '1');
  }

  /** One step of the replace-all: the match is replaced and the remainder
      shifted by `c` codes, so the whole text shifts by the match's share plus `c`. */
  lemma ShiftStep(s: string, m: Match, threshold: real, tail': string, c: nat)
    requires IsMatch(s, m)
    requires CodeCount(tail', 'G', '0') == CodeCount(s[m.End()..], 'G', '0') + c
    requires CodeCount(tail', 'G', '1') + c == CodeCount(s[m.End()..], 'G', '1')
    ensures var d := if Demoted(s, m, threshold) then 1 else 0;
            var t := s[..m.start] + Replacement(s, m, threshold) + tail';
            CodeCount(t, 'G', '0') == CodeCount(s, 'G', '0') + d + c
            && CodeCount(t, 'G', '1') + d + c == CodeCount(s, 'G', '1')
  {
    var orig := MatchedText(s, m);
    var d: nat := if Demoted(s, m, threshold) then 1 else 0;
    SplitAtMatch(s, m);
    ReplacementCodes(s, m, threshold);
    assert IsSpace(orig[|orig| - 1]);
    SpliceShift(s[..m.start], orig, s[m.End()..], Replacement(s, m, threshold), tail', d, c);
  }

  /** The counter is the number of marking codes turned into travel codes:
      each demotion adds one `G0` and removes one `G1`, and nothing else
      creates or destroys either code. */
  lemma {:induction false} CountIsCodeShift(s: string, threshold: real)
    ensures var r := Substitute(s, threshold);
            CodeCount(r.text, 'G', '0') == CodeCount(s, 'G', '0') + r.count
            && CodeCount(r.text, 'G', '1') + r.count == CodeCount(s, 'G', '1')
    decreases |s|
  {
    match FindFrom(s, 0)
    case None =>
    case Some(m) =>
      var rest := Substitute(s[m.End()..], threshold);
      CountIsCodeShift(s[m.End()..], threshold);
      ShiftStep(s, m, threshold, rest.text, rest.count);
  }
}

=== FILE: transform.dfy ===
/** The whole script as a pure pass over the input lines: every line goes
    through the substitution, the results go through the one-line lookback,
    and the number of demoted matches is returned alongside the output. */
module Transform {
  import opened Wrappers
  import opened Pattern
  import opened Decimal
  import opened Substitution
  import opened Elision

  /** `new_line` for every input line, in order. */
  function TransformLines(input: seq<string>, threshold: real): seq<string> {
    seq(|input|, i requires 0 <= i < |input| => Substitute(input[i], threshold).text)
  }

  /** `changed_lines_count` after the first `n` lines. */
  function ChangedUpTo(input: seq<string>, threshold: real, n: nat): nat
    requires n <= |input|
  {
    if n == 0 then 0 else ChangedUpTo(input, threshold, n - 1) + Substitute(input[n - 1], threshold).count
  }

  /** The final value of `changed_lines_count`. */
  function ChangedTotal(input: seq<string>, threshold: real): nat {
    ChangedUpTo(input, threshold, |input|)
  }

  /** Occurrences of the code `xy` over the first `n` lines. */
  function CodesUpTo(lines: seq<string>, x: char, y: char, n: nat): nat
    requires n <= |lines|
  {
    if n == 0 then 0 else CodesUpTo(lines, x, y, n - 1) + CodeCount(lines[n - 1], x, y)
  }

  /** Occurrences of the code `xy` over all lines. */
  function CodesIn(lines: seq<string>, x: char, y: char): nat {
    CodesUpTo(lines, x, y, |lines|)
  }

  lemma {:induction false} CodeShiftUpTo(input: seq<string>, threshold: real, n: nat)
    requires n <= |input|
    ensures var out := TransformLines(input, threshold);
            CodesUpTo(out, 'G', '0', n) == CodesUpTo(input, 'G', '0', n) + ChangedUpTo(input, threshold, n)
            && CodesUpTo(out, 'G', '1', n) + ChangedUpTo(input, threshold, n) == CodesUpTo(input, 'G', '1', n)
    decreases n
  {
    if n > 0 {
      var out := TransformLines(input, threshold);
      var r := Substitute(input[n - 1], threshold);
      assert out[n - 1] == r.text;
      CountIsCodeShift(input[n - 1], threshold);
      CodeShiftUpTo(input, threshold, n - 1);
      assert CodesUpTo(out, 'G', '0', n) == CodesUpTo(out, 'G', '0', n - 1) + CodeCount(r.text, 'G', '0');
      assert CodesUpTo(out, 'G', '1', n) == CodesUpTo(out, 'G', '1', n - 1) + CodeCount(r.text, 'G', '1');
    }
  }

  /** The reported count is the number of `G1` codes the pass turned into `G0`
      codes, over the whole file. */
  lemma ChangedTotalIsCodeShift(input: seq<string>, threshold: real)
    ensures var out := TransformLines(input, threshold);
            CodesIn(out, 'G', '0') == CodesIn(input, 'G', '0') + ChangedTotal(input, threshold)
            && CodesIn(out, 'G', '1') + ChangedTotal(input, threshold) == CodesIn(input, 'G', '1')
  {
    CodeShiftUpTo(input, threshold, |input|);
  }

  lemma {:induction false} NothingChangedUpTo(input: seq<string>, threshold: real, n: nat)
    requires n <= |input|
    requires forall i :: 0 <= i < |input| ==> NoMatchFrom(input[i], 0)
    ensures ChangedUpTo(input, threshold, n) == 0
    decreases n
  {
    if n > 0 {
      PassThrough(input[n - 1], threshold);
      NothingChangedUpTo(input, threshold, n - 1);
    }
  }

  /** A file in which the pattern matches nowhere comes out of the
      substitution stage unchanged, with nothing counted. */
  lemma NoMatchPassesThrough(input: seq<string>, threshold: real)
    requires forall i :: 0 <= i < |input| ==> NoMatchFrom(input[i], 0)
    ensures TransformLines(input, threshold) == input
    ensures ChangedTotal(input, threshold) == 0
  {
    forall i | 0 <= i < |input|
      ensures TransformLines(input, threshold)[i] == input[i]
    {
      PassThrough(input[i], threshold);
    }
    NothingChangedUpTo(input, threshold, |input|);
  }

  lemma Regroup<T>(a: seq<T>, b: seq<T>, c: seq<T>)
    ensures a + b + c == a + (b + c)
  {
  }

  /** Lines 67-73 for one new line: what is written now, and the new pending line. */
  method Advance(previous: Option<string>, newLine: string) returns (written: seq<string>, pending: Option<string>)
    ensures forall rest: seq<string> {:trigger ElideFrom(pending, rest)} ::
              written + ElideFrom(pending, rest) == ElideFrom(previous, [newLine] + rest)
  {
    written := [];
    if Merges(previous, newLine) {
      pending := Some(newLine);
    } else {
      if Occupied(previous) {
        written := [previous.value];
      }
      pending := Some(newLine);
    }
    forall rest: seq<string> ensures written + ElideFrom(pending, rest) == ElideFrom(previous, [newLine] + rest) {
      assert ([newLine] + rest)[1..] == rest;
    }
  }

  /** Lines 61-77: the loop with its pending slot, the change counter, and the
      final flush. */
  method Process(input: seq<string>, threshold: real) returns (output: seq<string>, changed: nat)
    ensures output == Survivors(TransformLines(input, threshold))
    ensures changed == ChangedTotal(input, threshold)
    ensures IsSubsequence(output, TransformLines(input, threshold))
    ensures |output| <= |input|
    ensures |input| == 0 ==> output == [] && changed == 0
  {
    ghost var lines := TransformLines(input, threshold);
    output := [];
    changed := 0;
    var previous: Option<string> := None;
    var i := 0;
    assert lines[0..] == lines;
    while i < |input|
      invariant 0 <= i <= |input|
      invariant output + ElideFrom(previous, lines[i..]) == Elide(lines)
      invariant changed == ChangedUpTo(input, threshold, i)
      decreases |input| - i
    {
      var r := Substitute(input[i], threshold);
      var newLine := r.text;
      changed := changed + r.count;
      var written;
      ghost var before := previous;
      written, previous := Advance(previous, newLine);
      StepKeepsElision(lines, i, output, before, written, previous);
      output := output + written;
      i := i + 1;
    }
    assert lines[i..] == [];
    FlushCompletes(lines, output, previous);
    if Occupied(previous) {
      output := output + [previous.value];
    }
  }

  /** One loop step keeps the loop invariant of `Process`: what is written so
      far, followed by the elision of the remaining lines from the pending
      slot, is the elision of the whole file. */
  lemma StepKeepsElision(lines: seq<string>, i: nat, done: seq<string>,
                         previous: Option<string>, written: seq<string>, pending: Option<string>)
    requires i < |lines|
    requires done + ElideFrom(previous, lines[i..]) == Elide(lines)
    requires written + ElideFrom(pending, lines[i + 1..]) == ElideFrom(previous, [lines[i]] + lines[i + 1..])
    ensures (done + written) + ElideFrom(pending, lines[i + 1..]) == Elide(lines)
  {
    assert lines[i..] == [lines[i]] + lines[i + 1..];
    Regroup(done, written, ElideFrom(pending, lines[i + 1..]));
  }

  /** The final flush completes the elision: what was written, followed by the
      pending line, is the surviving lines, a subsequence no longer than the
      file. */
  lemma FlushCompletes(lines: seq<string>, done: seq<string>, pending: Option<string>)
    requires done + ElideFrom(pending, []) == Elide(lines)
    ensures done + Flush(pending) == Survivors(lines)
    ensures IsSubsequence(done + Flush(pending), lines)
    ensures |done + Flush(pending)| <= |lines|
  {
    ElideIsSurvivors(lines);
    ElideIsSubsequence(lines);
  }

  /** Every input line is non-empty when read from a file, so every transformed
      line is too, and the last one is always written, last. */
  lemma LastLineWritten(input: seq<string>, threshold: real)
    requires |input| > 0 && input[|input| - 1] != ""
    ensures var out := Survivors(TransformLines(input, threshold));
            |out| > 0 && out[|out| - 1] == Substitute(input[|input| - 1], threshold).text
  {
    var lines := TransformLines(input, threshold);
    assert lines[|lines| - 1] == Substitute(input[|input| - 1], threshold).text;
    LastSurvives(lines);
  }

  lemma IntensityOfTwoDigits(v: string)
    requires |v| == 2 && IsDigit(v[0]) && IsDigit(v[1])
    ensures IsValue(v) && Intensity(v) == (10 * DigitValue(v[0]) + DigitValue(v[1])) as real
  {
    assert IsIntPart(v);
    assert v[..1][..0] == [] && v[..1][0] == v[0];
    assert IntValue(v[..1]) == DigitValue(v[0]);
  }

  /** The first match in a text that opens with a marking move whose
      parameters hold no `S`: it spans exactly that move. */
  lemma MarkingMoveFound(g: string, v: string, ws: char, rest: string)
    requires 'S' !in g && '\n' !in g && IsValue(v) && IsSpace(ws)
    ensures var s := "G1" + g + ("S" + v + [ws] + rest);
            var m := Match(0, 2 + |g|, |v|);
            FindFrom(s, 0) == Some(m) && s[m.End()..] == rest
            && Group1(s, m) == g && ValueText(s, m) == v && MatchedText(s, m) == "G1" + g + ("S" + v + [ws])
  {
    var s := "G1" + g + ("S" + v + [ws] + rest);
    var m := Match(0, 2 + |g|, |v|);
    assert s[m.sAt + 1..m.sAt + 1 + |v|] == v;
    assert s[2..m.sAt] == g;
    assert IsMatch(s, m);
    FindsMatch(s, m);
    assert s[m.End()..] == rest;
    assert MatchedText(s, m) == "G1" + g + ("S" + v + [ws]);
  }

  /** A match at the front of a line whose group 1 contains one `S`, at `k`,
      followed by three digits is still the match the search reports: that
      `S` cannot end group 1, so the lazy group runs past it. */
  lemma SkipsThreeDigitS(s: string, m: Match, k: nat)
    requires IsMatch(s, m) && m.start == 0
    requires 2 <= k && k + 4 <= m.sAt && s[k] == 'S'
    requires IsDigit(s[k + 1]) && IsDigit(s[k + 2]) && IsDigit(s[k + 3])
    requires forall q :: 2 <= q < m.sAt && q != k ==> s[q] != 'S'
    ensures FindFrom(s, 0) == Some(m)
  {
    ThreeDigitsNeverMatch(s, k);
    assert IsFirstMatch(s, 0, m);
    FirstMatchUnique(s, 0, FindFrom(s, 0).value, m);
  }

  /** A line with a three-digit intensity at its first `S` still matches at a
      later `S` whose value is followed by whitespace. */
  lemma ThreeDigitsMatchLater(g1: string, t: string, g2: string, v: string, ws: char, rest: string)
    requires 'S' !in g1 && '\n' !in g1 && 'S' !in g2 && '\n' !in g2
    requires |t| == 3 && IsDigit(t[0]) && IsDigit(t[1]) && IsDigit(t[2])
    requires IsValue(v) && IsSpace(ws)
    ensures var s := "G1" + g1 + ("S" + t + g2) + ("S" + v + [ws] + rest);
            FindFrom(s, 0) == Some(Match(0, 2 + |g1| + 4 + |g2|, |v|))
  {
    var s := "G1" + g1 + ("S" + t + g2) + ("S" + v + [ws] + rest);
    var k := 2 + |g1|;
    var m := Match(0, k + 4 + |g2|, |v|);
    assert s[k..k + 4] == "S" + t;
    assert s[m.sAt + 1..m.sAt + 1 + |v|] == v;
    forall q | 2 <= q < m.sAt ensures s[q] != '\n' && (q != k ==> s[q] != 'S') {
      if q < k {
        assert s[q] == g1[q - 2];
      } else if k + 4 <= q {
        assert s[q] == g2[q - k - 4];
      }
    }
    assert IsMatch(s, m);
    SkipsThreeDigitS(s, m, k);
  }

  /** A marking move at the front of a text, with no `S` in its parameters,
      is rewritten by the strict threshold test and the rest of the text is
      substituted on its own. */
  lemma MarkingMoveRewrite(g: string, v: string, ws: char, rest: string, threshold: real)
    requires 'S' !in g && '\n' !in g && IsValue(v) && IsSpace(ws)
    ensures var r := Substitute("G1" + g + ("S" + v + [ws] + rest), threshold);
            var tail := Substitute(rest, threshold);
            if Intensity(v) < threshold then
              r == Rewrite("G0" + g + "S0\n" + tail.text, 1 + tail.count)
            else
              r == Rewrite("G1" + g + ("S" + v + [ws] + tail.text), tail.count)
  {
    var s := "G1" + g + ("S" + v + [ws] + rest);
    var m := Match(0, 2 + |g|, |v|);
    MarkingMoveFound(g, v, ws, rest);
    SubstituteAtStart(s, threshold, m);
    if threshold <= Intensity(v) {
      Regroup("G1" + g, "S" + v + [ws], Substitute(rest, threshold).text);
    }
  }

  /** The usual marking move, closed by its newline, under threshold 50 with
      intensity 45 (as in `G1 X10 Y5 S45`): it becomes a travel move at
      intensity zero, and one change is counted. */
  lemma DemotesExampleLine(g: string)
    requires 'S' !in g && '\n' !in g
    ensures Substitute("G1" + g + "S45\n", 50.0) == Rewrite("G0" + g + "S0\n", 1)
  {
    IntensityOfTwoDigits("45");
    MarkingMoveRewrite(g, "45", '\n', "", 50.0);
    assert "S45\n" == "S" + "45" + ['\n'] + "";
    assert Substitute("", 50.0) == Rewrite("", 0);
    assert "G0" + g + "S0\n" + "" == "G0" + g + "S0\n";
  }

  /** How the tail of the space-before-newline example splits into the pieces
      of a match and the rest of the line. */
  lemma SpaceNewlineSplit()
    ensures "S45 \n" == "S" + "45" + [' '] + "\n"
  {
    assert ("S" + "45" + [' '] + "\n")[3] == ' ';
  }

  /** When a space closes the value, the `\s` of the pattern consumes the space
      and the replacement adds its own newline, so the line's newline follows
      it and an empty line appears in the output. */
  lemma SpaceBeforeNewlineLeavesEmptyLine(g: string)
    requires 'S' !in g && '\n' !in g
    ensures Substitute("G1" + g + "S45 \n", 50.0) == Rewrite("G0" + g + "S0\n" + "\n", 1)
  {
    IntensityOfTwoDigits("45");
    MarkingMoveRewrite(g, "45", ' ', "\n", 50.0);
    SpaceNewlineSplit();
    assert Substitute("\n", 50.0) == Rewrite("\n", 0);
  }

  /** An intensity equal to the threshold is kept: the comparison is strict. */
  lemma KeepsLineAtThreshold(g: string)
    requires 'S' !in g && '\n' !in g
    ensures Substitute("G1" + g + "S50\n", 50.0) == Rewrite("G1" + g + "S50\n", 0)
  {
    IntensityOfTwoDigits("50");
    MarkingMoveRewrite(g, "50", '\n', "", 50.0);
    assert "S50\n" == "S" + "50" + ['\n'] + "";
    assert Substitute("", 50.0) == Rewrite("", 0);
  }

  /** Two non-essential travel lines collapse to the later one; an `F` on the
      first keeps both. */
  lemma ElisionExamples()
    ensures Elide(["G0 X1\n", "G0 X2\n"]) == ["G0 X2\n"]
    ensures Elide(["G0 X1 F500\n", "G0 X2\n"]) == ["G0 X1 F500\n", "G0 X2\n"]
    ensures Elide(["G02 X1 I1\n", "G0 X2\n"]) == ["G0 X2\n"]
  {
    assert !IsEssential("G0 X1\n");
    assert "G0 X1 F500\n"[6] == 'F';
    assert !IsEssential("G02 X1 I1\n");
  }

  /** The pattern looks for the literal `G1`, so a cutting move written with a
      leading zero, `G01`, is never matched and never demoted. */
  lemma ZeroPaddedMoveNeverMatches(g: string, threshold: real)
    requires 'G' !in g
    ensures FindFrom("G01" + g, 0).None?
    ensures Substitute("G01" + g, threshold) == Rewrite("G01" + g, 0)
  {
    var s := "G01" + g;
    assert NoMatchFrom(s, 0);
    PassThrough(s, threshold);
  }
}

=== FILE: wrappers.dfy ===
/** An optional value, as `None` or a value of `T`. */
module Wrappers {
  datatype Option<T> = None | Some(value: T)
}
